=== FILE: README.md ===
# Workflow runner — a Dafny model

The workflow runner is a TRAPI service. It finds, in the SmartAPI registry,
the endpoints that advertise workflow operations. From them it builds a
table `SERVICES` (operation id → query URLs). It answers `/query` by running a
request's workflow one operation at a time: each operation is posted, with
the current message, to the first URL registered for its id. The cleaned
message of each reply becomes the next step's message.

This project models the deterministic core of that behaviour:

- `json.dfy` (`Json`): JSON values as Python sees them after `json.load`. It
  also holds the bits of Python semantics the code relies on: `v[k]`,
  truthiness, `len`, `or`, and the exceptions these raise.
- `util.dfy` (`Util`): `drop_nulls` and `elide_curies`.
- `smartapi.dfy` (`SmartApi`): the loop of `get_trapi_endpoints` that turns
  registry hits into `{url, operations, version}` records, and the filter
  `get_operations_endpoints`.
- `services.dfy` (`Services`): the start-up loops that build `SERVICES`. They
  are modelled both as a fold over the endpoints and statement by statement.
  Each is proved against an independent description of what every list
  holds.
- `workflow.dfy` (`Workflow`): the `/query` handler. The HTTP client is a
  function parameter (`Provider`), so a run is determined by the table, the
  provider and the request. The handler is given both as a recursive
  function (`RunSteps`) and as the loop itself (`RunWorkflowLoop`).

Python exceptions are values: `PyError` for `KeyError`, `IndexError` and
`TypeError`, and `Workflow.Failure` for the ways a run stops early. `Null`
stands for `None`.

## Model

| member | source | states |
|---|---|---|
| Util.DropNulls | app/util.py:146-158 | the result holds no null dict value at any depth; a list keeps its length and its null elements stay null; a dict keeps exactly its non-null keys; scalars come back unchanged |
| Util.DropNullsKeepsNullFree | app/util.py:146-158 | a value with no null dict entry is returned exactly as it is |
| Util.DropNullsFixedPoints | app/util.py:146-158 | drop_nulls(v) == v if and only if v holds no null dict entry |
| Util.DropNullsIdempotent | app/util.py:146-158 | cleaning twice gives the same value as cleaning once |
| Util.PrunedAntisymmetric | app/util.py:146-158 | the pruning order used to describe drop_nulls is a partial order: two values that prune each other are equal |
| Util.DropNullsPrunes | app/util.py:147-158 | drop_nulls only deletes dict entries: every kept list element and dict value, at any depth, is a pruning of the original value at the same index or key |
| Util.DropNullsGreatest | app/util.py:147-158 | every null-free pruning of v is a pruning of drop_nulls(v): no non-null entry is deleted at any depth |
| Util.DropNullsUnique | app/util.py:147-158 | drop_nulls(v) is the one null-free pruning of v that every other null-free pruning of v prunes |
| Util.Decimal | app/util.py:110 | the f-string rendering of a count is non-empty, all digits, without a leading zero, and one character long exactly for counts below 10 |
| Util.DecimalRoundTrip | app/util.py:110 | reading the rendered digits back gives the count |
| Util.MarkerLength | app/util.py:110 | the marker "**N CURIEs not shown for brevity**" is 33 characters plus the digits of N long, so always longer than 10 |
| Util.CurieCount | app/util.py:109 | `len(qnode.get("ids") or [])`: an absent or falsy `ids` counts 0; a list counts its elements, a string its characters, a dict its keys; a truthy number or boolean raises |
| Util.ElideNode | app/util.py:109-110 | the loop body handles a node exactly when it is a dict whose `ids` has a length; the result has the same keys, every field other than `ids` keeps its value, and `ids` becomes the marker for its count exactly when the count is above 10 |
| Util.ElideNodes | app/util.py:108-110 | succeeds exactly when every node is a dict whose `ids` has a length, raising TypeError otherwise; keeps every node name; in each node only `ids` may change, and it becomes the marker for its count exactly when the count is above 10 |
| Util.ElideQueryGraph | app/util.py:106-111 | a missing `query_graph` or `nodes` raises KeyError for that key; once the nodes are reached, success means every node is a dict whose `ids` has a length; on success only the node values change, and in each node only `ids` may change, to the marker for its count exactly when the count is above 10 |
| Util.ElideCuries | app/util.py:103-111 | a dict without "message" comes back unchanged; a dict with one is handled by ElideQueryGraph; for a list or string payload, `in` decides between returning it unchanged and raising TypeError; other payloads raise TypeError |
| Util.ElideCuriesIdLists | app/util.py:108-110 | a node whose ids are absent, null or a list of at most 10 is unchanged; a list longer than 10 becomes the marker for its length |
| Util.ElideCuriesNotIdempotent | app/util.py:103-111 | some payload is changed again by a second elision: the 11-CURIE marker is 35 characters long and becomes a 35 marker |
| SmartApi.ServerUrl | app/smartapi.py:39-42 | `hit["servers"][0]["url"]` when it exists; None when the lookup raises KeyError or IndexError; a TypeError escapes |
| SmartApi.TrapiField | app/smartapi.py:43-50 | `hit["info"]["x-trapi"][field]` when it exists; None when the lookup raises KeyError; a TypeError escapes |
| SmartApi.TrapiFieldsReadTogether | app/smartapi.py:43-50 | if reading one TRAPI field does not raise, reading the other does not either |
| SmartApi.ExtractEndpoint | app/smartapi.py:38-55 | a hit yields a record exactly when none of the three lookups raises TypeError; each field is the looked-up value, or None when it is missing |
| SmartApi.TrapiEndpoints | app/smartapi.py:37-57 | one record per hit, in hit order, record i built from hit i; any raising hit makes the whole call raise TypeError |
| SmartApi.OperationsEndpoints | app/smartapi.py:19-24 | keeps the records whose operations is not None, in their original order, each as often as it occurs, and nothing else |
| Services.StringIds | app/server.py:32 | iterating a list of strings visits each string once per occurrence; a non-string element is reported as TypeError, while Python raises only for list or dict elements |
| Services.CharIds | app/server.py:32 | iterating a string visits its one-character substrings, once per occurrence |
| Services.OperationIds | app/server.py:32 | a list yields its elements, a string its characters, a dict its keys; anything else is not iterable and raises TypeError |
| Services.AddEndpoint | app/server.py:31-33 | one endpoint appends its query URL once to the list of every id it lists; it raises exactly when the operations are not iterable or a URL is needed but is not a string |
| Services.AddEndpointsSucceeds | app/server.py:31-33 | the build raises exactly when some endpoint cannot be registered, and the error is TypeError |
| Services.ServicesUrls | app/server.py:30-34 | `SERVICES[op]` is each endpoint's `url + "/query"`, in endpoint order, once per occurrence of op among its operations |
| Services.ServicesKeysAndLists | app/server.py:30-34 | the keys are exactly the ids some endpoint lists; every list is non-empty, as long as its key's occurrences, and made of URLs ending in "/query" |
| Services.ServicesTotal | app/server.py:30-34 | the table holds as many URLs in total as the endpoints list operation ids |
| Services.OperationsEndpointsIds | app/server.py:29-32 | dropping the records without operations loses no id: a kept record lists op exactly when some record does |
| Services.StartupServices | app/server.py:29-34 | building the table from the registry hits succeeds exactly when every hit yields a record and every record with operations can be registered; otherwise it raises TypeError |
| Services.StartupServicesKeys | app/server.py:29-34 | an id is a key of the table built from the hits exactly when some hit's record lists it |
| Services.AppendAll | app/server.py:32-33 | the inner loop, one append per id occurrence, builds the same table as the description |
| Services.BuildServicesLoop | app/server.py:30-34 | the two nested loops return the same table, or raise the same error, as the fold |
| Workflow.FirstUrl | app/server.py:63 | `SERVICES[id][0]`: the first registered URL; an unknown id is an error, and so is an empty list |
| Workflow.PostBody | app/server.py:65-72 | every POST body has exactly the keys message and workflow: the current message and a one-operation workflow |
| Workflow.NextMessage | app/server.py:75-77 | a status above 200 aborts with that status; otherwise the next message is drop_nulls of the reply's "message", and it holds no nulls |
| Workflow.RunSteps | app/server.py:62-77 | at most one POST per operation; a run that succeeds posts every operation; an empty workflow returns the message; a non-empty one returns a null-free message |
| Workflow.RunStepsTargets | app/server.py:62-65 | POST i carries operation i and goes to the first URL registered for its id |
| Workflow.RunStepsMessages | app/server.py:59-77 | the first POST carries the caller's message unchanged; each later one carries drop_nulls of the previous reply's message |
| Workflow.RunStepsLastReply | app/server.py:75-77 | a run that posts every step, or whose last reply is refused, ends with what that last reply yields |
| Workflow.RunStepsNoUrl | app/server.py:62-63 | a run that stops early although every reply so far was accepted stops because the next id has no URL |
| Workflow.RunWorkflow | app/server.py:59-81 | the handler succeeds exactly when the run does; the response carries the requested workflow unchanged, and the caller's message for an empty workflow |
| Workflow.RunWorkflowLastMessage | app/server.py:77-81 | a handler that succeeds on a non-empty workflow posted every step, the last reply was accepted, and the returned message is drop_nulls of that reply's "message" |
| Workflow.ErrorStatusAborts | app/server.py:75-76 | a reply with status above 200, including 201-299, is the last one and ends the run with that status |
| Workflow.NoProviderAtEmptyList | app/server.py:63 | a run stops for want of a provider only at an id whose URL list is empty |
| Workflow.BuiltServicesHaveProviders | app/server.py:63 | with a table built from endpoints, a run never fails on `[0]` of an empty list |
| Workflow.RunWorkflowLoop | app/server.py:52-81 | the handler's loop as written makes the same POSTs and returns the same result as RunSteps and RunWorkflow |

## Left out

- Network I/O: the registry query (`httpx.get`, `raise_for_status`, `.json()`) is not modelled, and the parsed `hits` list is the input. The POSTs of the handler are a `Provider` function parameter. A reply body that does not parse is `None`.
- A POST that raises (a connect or read error, or the 30-second timeout expiring) is not modelled: a `Provider` always returns a `Reply`, so every run the model describes is one whose POSTs all returned. A `Provider` is also a function, so two identical POSTs get the same reply.
- The 30-second timeout, the text of the ValueError (`response.text`), and the debug logging of the handler are not modelled.
- `request.dict(exclude_unset=True)` and pydantic validation are not modelled: the request is taken as already validated, with a message and a list of operations that each carry a string id. The construction of the `Response` model is not modelled either.
- FastAPI wiring, `load_example`, `@cache`, the `/services` handler (it returns the table unchanged), and the `main()` command line of the registry module are not modelled.
- `post_safely`, `log_request` and `log_response` in the utility module are I/O wrappers and are not modelled. `elide_curies` is modelled on its own.
- The logging, standard-operations, management-script and pydantic-model modules are not part of this model.
- The registry's maturity filtering, allow and deny lists and fallback behaviour do not appear in the modelled source and are not modelled.
- The test suite's own `drop_nulls`, which does not walk lists, is not modelled.
- Floating-point numbers: JSON numbers are integers. Only their truthiness matters to the modelled code.
- Dict key order is not modelled: dicts are maps. When several nodes or ids would raise, the model does not say which one raises first.
- `AttributeError` (calling `.get` or `.values()` on a non-dict) is folded into `TypeError`, so that key order never decides which error is raised.
- Services.StringIds: a number, boolean or None element is reported as `TypeError`, though Python hashes it and registers it as a key; operation ids are strings in the registry's data model.
- Services.OperationIds: a list of operations with non-string hashable elements (numbers, booleans, None) is reported as `TypeError`, though Python would register such ids as keys; operation ids are strings in the registry's data model.

=== FILE: json.dfy ===
/** JSON values as the Python code sees them after `json.load`, together with
    the few pieces of Python semantics the workflow runner relies on when it
    walks such values: subscripting (`v[key]`, `v[0]`), truthiness and `len`.

    Objects are maps: Python compares dicts without regard to key order, and
    none of the modelled operations depends on the order of keys.  Numbers are
    integers; floating point is not modelled. */
module Json {

  datatype Value =
    | Null
    | Bool(b: bool)
    | Num(n: int)
    | Str(s: string)
    | Arr(items: seq<Value>)
    | Obj(fields: map<string, Value>)

  /** The two kinds of subscript the code uses: a dict key and a list position. */
  datatype Key = Name(name: string) | Pos(index: nat)

  /** The exceptions Python raises while walking a value.  `TypeError` also
      stands for `AttributeError` (calling `.get` or `.values()` on a non-dict):
      the code never distinguishes the two. */
  datatype PyError = KeyError(key: Key) | IndexError | TypeError

  datatype Option<+T> = None | Some(value: T)

  datatype Result<+T, +E> = Ok(value: T) | Err(error: E) {
    predicate IsFailure() {
      Err?
    }

    function PropagateFailure<U>(): Result<U, E>
      requires Err?
    {
      Err(error)
    }

    function Extract(): T
      requires Ok?
    {
      value
    }
  }

  /** Python's `v[k]` on a JSON value. A dict indexed by a position raises
      `KeyError` (JSON dicts only have string keys); a string indexed by a
      position yields a one-character string. */
  function Get(v: Value, k: Key): (r: Result<Value, PyError>)
    ensures r.Ok? && k.Name? ==> v.Obj? && k.name in v.fields && r.value == v.fields[k.name]
    ensures r.Ok? && k.Pos? ==> (v.Arr? && k.index < |v.items|) || (v.Str? && k.index < |v.s|)
    ensures r.Err? && r.error.KeyError? ==> v.Obj?
    ensures r.Err? && r.error.IndexError? ==> v.Arr? || v.Str?
    ensures r == Err(TypeError) <==> !(v.Obj? || (k.Pos? && (v.Arr? || v.Str?)))
  {
    match (v, k)
    case (Obj(m), Name(n)) => if n in m then Ok(m[n]) else Err(KeyError(k))
    case (Obj(_), Pos(_)) => Err(KeyError(k))
    case (Arr(items), Pos(i)) => if i < |items| then Ok(items[i]) else Err(IndexError)
    case (Str(s), Pos(i)) => if i < |s| then Ok(Str([s[i]])) else Err(IndexError)
    case _ => Err(TypeError)
  }

  /** `v[k0][k1]...`, stopping at the first exception. */
  function GetPath(v: Value, path: seq<Key>): (r: Result<Value, PyError>)
    decreases |path|
  {
    if path == [] then Ok(v)
    else
      var child :- Get(v, path[0]);
      GetPath(child, path[1..])
  }

  /** Python truthiness of a JSON value. */
  predicate Truthy(v: Value)
  {
    match v
    case Null => false
    case Bool(b) => b
    case Num(n) => n != 0
    case Str(s) => |s| > 0
    case Arr(items) => |items| > 0
    case Obj(m) => |m| > 0
  }

  /** Python's `len(v)`: defined for strings, lists and dicts only. */
  function Len(v: Value): (r: Result<nat, PyError>)
    ensures r.Ok? <==> v.Str? || v.Arr? || v.Obj?
    ensures r.Ok? && r.value == 0 ==> !Truthy(v)
    ensures r.Err? ==> r.error == TypeError
  {
    match v
    case Str(s) => Ok(|s|)
    case Arr(items) => Ok(|items|)
    case Obj(m) => Ok(|m|)
    case _ => Err(TypeError)
  }

  /** Python's `a or b`. */
  function Or(a: Value, b: Value): Value
  {
    if Truthy(a) then a else b
  }
}

=== FILE: services.dfy ===
/** The service table the runner builds once at start-up from the registry's
    operation endpoints: operation id -> the query URLs of the endpoints that
    advertise it, in discovery order. */
module Services {
  import opened Json
  import opened SmartApi

  /** `SERVICES`: operation id -> ordered list of query URLs. */
  type Table = map<string, seq<string>>

  /** The path appended to an endpoint's base URL. */
  const QuerySuffix: string := "/query"

  /** The list registered for `op`; what `defaultdict(list)` yields for a key
      it has not seen. */
  function Urls(table: Table, op: string): seq<string>
  {
    if op in table then table[op] else []
  }

  function Repeat(s: string, n: nat): (r: seq<string>)
    ensures |r| == n
    ensures forall i | 0 <= i < n :: r[i] == s
  {
    if n == 0 then [] else Repeat(s, n - 1) + [s]
  }

  // ---------------------------------------------------------------------------
  // What `for operation in endpoint["operations"]` visits

  /** The ids in a list, which must all be strings: a dict or list element is
      unhashable, and other non-string ids are outside the model. */
  function StringIds(items: seq<Value>): (r: Result<multiset<string>, PyError>)
    ensures r.Ok? <==> forall i | 0 <= i < |items| :: items[i].Str?
    ensures r.Err? ==> r.error == TypeError
    ensures r.Ok? ==> |r.value| == |items|
    ensures r.Ok? ==> forall id :: r.value[id] == multiset(items)[Str(id)]
  {
    if items == [] then Ok(multiset{})
    else
      var last := items[|items| - 1];
      assert items == items[..|items| - 1] + [last];
      var rest :- StringIds(items[..|items| - 1]);
      if last.Str? then Ok(rest + multiset{last.s}) else Err(TypeError)
  }

  /** Iterating a string visits its characters, each a one-character string. */
  function CharIds(s: string): (r: multiset<string>)
    ensures |r| == |s|
    ensures forall id :: r[id] == if |id| == 1 then multiset(s)[id[0]] else 0
  {
    if s == [] then multiset{}
    else
      var last := s[|s| - 1];
      assert s == s[..|s| - 1] + [last];
      assert forall id: string | |id| == 1 :: id == [last] <==> id[0] == last;
      CharIds(s[..|s| - 1]) + multiset{[last]}
  }

  /** The operation ids one endpoint registers, with their multiplicity: a
      list's elements, a string's characters, a dict's keys. Anything else is
      not iterable. */
  function OperationIds(operations: Value): (r: Result<multiset<string>, PyError>)
    ensures operations.Arr? ==> r == StringIds(operations.items)
    ensures operations.Str? ==> r == Ok(CharIds(operations.s))
    ensures operations.Obj? ==> r == Ok(multiset(operations.fields.Keys))
    ensures r.Err? ==> r.error == TypeError
    ensures operations.Null? || operations.Num? || operations.Bool? ==> r.Err?
  {
    match operations
    case Arr(items) => StringIds(items)
    case Str(s) => Ok(CharIds(s))
    case Obj(m) => Ok(multiset(m.Keys))
    case _ => Err(TypeError)
  }

  /** The ids an endpoint registers when its `operations` can be iterated. */
  function IdsOf(e: Endpoint): multiset<string>
  {
    var ids := OperationIds(e.operations);
    if ids.Ok? then ids.value else multiset{}
  }

  /** The inner loop runs without raising: the operations are iterable, and
      the URL is a string whenever there is an id to append it for. */
  predicate Registrable(e: Endpoint)
  {
    OperationIds(e.operations).Ok? && (IdsOf(e) != multiset{} ==> e.url.Str?)
  }

  /** `endpoint["url"] + "/query"`. */
  function QueryUrl(e: Endpoint): string
    requires e.url.Str?
  {
    e.url.s + QuerySuffix
  }

  // ---------------------------------------------------------------------------
  // The two loops of the start-up code

  /** Appending `target` to the list of every id in `ids`, once per
      occurrence. The order of the appends does not matter: for one key they
      all append the same string. */
  function Register(table: Table, target: string, ids: multiset<string>): (r: Table)
    ensures r.Keys == table.Keys + set op | op in ids
  {
    map op | op in table.Keys + (set op | op in ids) :: Urls(table, op) + Repeat(target, ids[op])
  }

  lemma RegisterUrls(table: Table, target: string, ids: multiset<string>, op: string)
    ensures Urls(Register(table, target, ids), op) == Urls(table, op) + Repeat(target, ids[op])
  {
  }

  /** One more occurrence of `id` is one more append to its list. */
  lemma RegisterOneMore(table: Table, target: string, ids: multiset<string>, id: string)
    ensures Register(table, target, ids + multiset{id})
         == Register(table, target, ids)[id := Urls(Register(table, target, ids), id) + [target]]
  {
    var left := Register(table, target, ids + multiset{id});
    var right := Register(table, target, ids)[id := Urls(Register(table, target, ids), id) + [target]];
    forall op | op in left
      ensures op in right && left[op] == right[op]
    {
      RegisterUrls(table, target, ids + multiset{id}, op);
      RegisterUrls(table, target, ids, op);
      if op == id {
        assert (ids + multiset{id})[op] == ids[op] + 1;
      } else {
        assert (ids + multiset{id})[op] == ids[op];
      }
    }
    assert left.Keys == right.Keys;
  }

  /** The body of the outer loop for one endpoint. */
  function AddEndpoint(table: Table, e: Endpoint): (r: Result<Table, PyError>)
    ensures r.Ok? <==> Registrable(e)
    ensures r.Err? ==> r.error == TypeError
    ensures r.Ok? && IdsOf(e) == multiset{} ==> r.value == table
    ensures r.Ok? && IdsOf(e) != multiset{} ==> r.value == Register(table, QueryUrl(e), IdsOf(e))
  {
    var ids :- OperationIds(e.operations);
    if ids == multiset{} then Ok(table)
    else if !e.url.Str? then Err(TypeError)
    else Ok(Register(table, QueryUrl(e), ids))
  }

  /** The outer loop, threading the table through the endpoints in order. */
  function AddEndpoints(table: Table, endpoints: seq<Endpoint>): (r: Result<Table, PyError>)
    decreases |endpoints|
  {
    if endpoints == [] then Ok(table)
    else
      var next :- AddEndpoint(table, endpoints[0]);
      AddEndpoints(next, endpoints[1..])
  }

  /** `SERVICES`, built from the operation endpoints. */
  function BuildServices(endpoints: seq<Endpoint>): Result<Table, PyError>
  {
    AddEndpoints(map[], endpoints)
  }

  // ---------------------------------------------------------------------------
  // What the table holds, stated independently of the loops

  /** One endpoint's share of the list for `op`. */
  function Contribution(e: Endpoint, op: string): seq<string>
    requires Registrable(e)
  {
    if op in IdsOf(e) then Repeat(QueryUrl(e), IdsOf(e)[op]) else []
  }

  /** The URLs expected under `op`: each endpoint's query URL, in endpoint
      order, once per occurrence of `op` among its operations. */
  function ExpectedUrls(endpoints: seq<Endpoint>, op: string): (r: seq<string>)
    requires forall i | 0 <= i < |endpoints| :: Registrable(endpoints[i])
  {
    if endpoints == [] then []
    else Contribution(endpoints[0], op) + ExpectedUrls(endpoints[1..], op)
  }

  /** One endpoint extends the list for `op` by its share. */
  lemma AddEndpointUrls(table: Table, e: Endpoint, op: string)
    requires Registrable(e)
    ensures Urls(AddEndpoint(table, e).value, op) == Urls(table, op) + Contribution(e, op)
  {
    if IdsOf(e) != multiset{} {
      RegisterUrls(table, QueryUrl(e), IdsOf(e), op);
    }
  }

  /** How many times `op` occurs among all endpoints' operations. */
  function Occurrences(endpoints: seq<Endpoint>, op: string): nat
  {
    if endpoints == [] then 0 else IdsOf(endpoints[0])[op] + Occurrences(endpoints[1..], op)
  }

  /** How many ids all endpoints register together. */
  function TotalIds(endpoints: seq<Endpoint>): nat
  {
    if endpoints == [] then 0 else |IdsOf(endpoints[0])| + TotalIds(endpoints[1..])
  }

  predicate EndsWith(s: string, suffix: string)
  {
    |suffix| <= |s| && s[|s| - |suffix|..] == suffix
  }

  /** The build raises exactly when some endpoint cannot be registered, and it
      is then a `TypeError`. */
  lemma {:induction false} AddEndpointsSucceeds(table: Table, endpoints: seq<Endpoint>)
    ensures AddEndpoints(table, endpoints).Ok? <==> forall i | 0 <= i < |endpoints| :: Registrable(endpoints[i])
    ensures AddEndpoints(table, endpoints).Err? ==> AddEndpoints(table, endpoints).error == TypeError
    decreases |endpoints|
  {
    if endpoints != [] {
      var next := AddEndpoint(table, endpoints[0]);
      if next.Ok? {
        AddEndpointsSucceeds(next.value, endpoints[1..]);
        assert forall i | 1 <= i < |endpoints| :: endpoints[i] == endpoints[1..][i - 1];
      }
    }
  }

  /** Each list grows by exactly the expected URLs, in endpoint order. */
  lemma {:induction false} AddEndpointsUrls(table: Table, endpoints: seq<Endpoint>, op: string)
    requires forall i | 0 <= i < |endpoints| :: Registrable(endpoints[i])
    ensures AddEndpoints(table, endpoints).Ok?
    ensures Urls(AddEndpoints(table, endpoints).value, op) == Urls(table, op) + ExpectedUrls(endpoints, op)
    decreases |endpoints|
  {
    AddEndpointsSucceeds(table, endpoints);
    if endpoints != [] {
      var next := AddEndpointsStep(table, endpoints, op);
      AddEndpointsUrls(next, endpoints[1..], op);
      AppendAssociates(Urls(table, op), Contribution(endpoints[0], op), ExpectedUrls(endpoints[1..], op));
    }
  }

  /** One turn of the outer loop, unfolded. */
  lemma AddEndpointsStep(table: Table, endpoints: seq<Endpoint>, op: string) returns (next: Table)
    requires endpoints != []
    requires forall i | 0 <= i < |endpoints| :: Registrable(endpoints[i])
    ensures AddEndpoint(table, endpoints[0]) == Ok(next)
    ensures AddEndpoints(table, endpoints) == AddEndpoints(next, endpoints[1..])
    ensures forall i | 0 <= i < |endpoints[1..]| :: Registrable(endpoints[1..][i])
    ensures Urls(next, op) == Urls(table, op) + Contribution(endpoints[0], op)
    ensures ExpectedUrls(endpoints, op) == Contribution(endpoints[0], op) + ExpectedUrls(endpoints[1..], op)
  {
    next := AddEndpoint(table, endpoints[0]).value;
    RestRegistrable(endpoints);
    AddEndpointUrls(table, endpoints[0], op);
  }

  lemma AppendAssociates(a: seq<string>, b: seq<string>, c: seq<string>)
    ensures (a + b) + c == a + (b + c)
  {
  }

  lemma RestRegistrable(endpoints: seq<Endpoint>)
    requires endpoints != []
    requires forall i | 0 <= i < |endpoints| :: Registrable(endpoints[i])
    ensures forall i | 0 <= i < |endpoints[1..]| :: Registrable(endpoints[1..][i])
  {
    forall i | 0 <= i < |endpoints[1..]|
      ensures Registrable(endpoints[1..][i])
    {
      assert endpoints[1..][i] == endpoints[i + 1];
    }
  }

  /** There are as many expected URLs as occurrences, and each is an
      endpoint's query URL. */
  lemma {:induction false} ExpectedUrlsShape(endpoints: seq<Endpoint>, op: string)
    requires forall i | 0 <= i < |endpoints| :: Registrable(endpoints[i])
    ensures |ExpectedUrls(endpoints, op)| == Occurrences(endpoints, op)
    ensures forall u | u in ExpectedUrls(endpoints, op) :: EndsWith(u, QuerySuffix)
    decreases |endpoints|
  {
    if endpoints != [] {
      ExpectedUrlsShape(endpoints[1..], op);
      var e := endpoints[0];
      if op in IdsOf(e) {
        assert EndsWith(QueryUrl(e), QuerySuffix);
      }
    }
  }

  /** `op` occurs somewhere exactly when some endpoint lists it. */
  lemma {:induction false} OccurrencesPositive(endpoints: seq<Endpoint>, op: string)
    ensures Occurrences(endpoints, op) > 0 <==> exists i | 0 <= i < |endpoints| :: op in IdsOf(endpoints[i])
    decreases |endpoints|
  {
    if endpoints != [] {
      OccurrencesPositive(endpoints[1..], op);
      if exists i | 0 <= i < |endpoints| :: op in IdsOf(endpoints[i]) {
        var i :| 0 <= i < |endpoints| && op in IdsOf(endpoints[i]);
        if i > 0 {
          assert op in IdsOf(endpoints[1..][i - 1]);
        }
      }
      if exists i | 0 <= i < |endpoints[1..]| :: op in IdsOf(endpoints[1..][i]) {
        var i :| 0 <= i < |endpoints[1..]| && op in IdsOf(endpoints[1..][i]);
        assert op in IdsOf(endpoints[i + 1]);
      }
    }
  }

  /** What `SERVICES[op]` holds: each endpoint's `url + "/query"`, in
      discovery order, once per occurrence of `op` among its operations. */
  lemma ServicesUrls(endpoints: seq<Endpoint>, op: string)
    requires forall i | 0 <= i < |endpoints| :: Registrable(endpoints[i])
    ensures BuildServices(endpoints).Ok?
    ensures Urls(BuildServices(endpoints).value, op) == ExpectedUrls(endpoints, op)
  {
    AddEndpointsUrls(map[], endpoints, op);
  }

  /** The keys of `SERVICES` are exactly the ids some endpoint lists; every
      list is non-empty, as long as the occurrences of its key, and made of
      URLs ending in "/query". */
  lemma ServicesKeysAndLists(endpoints: seq<Endpoint>, op: string)
    requires BuildServices(endpoints).Ok?
    ensures op in BuildServices(endpoints).value <==>
              exists i | 0 <= i < |endpoints| :: op in IdsOf(endpoints[i])
    ensures op in BuildServices(endpoints).value ==>
              && |BuildServices(endpoints).value[op]| == Occurrences(endpoints, op) > 0
              && forall u | u in BuildServices(endpoints).value[op] :: EndsWith(u, QuerySuffix)
  {
    AddEndpointsSucceeds(map[], endpoints);
    ServicesUrls(endpoints, op);
    ExpectedUrlsShape(endpoints, op);
    OccurrencesPositive(endpoints, op);
    KeysHaveUrls(map[], endpoints, op);
  }

  /** Along the build a key is present exactly when its list is non-empty. */
  lemma {:induction false} KeysHaveUrls(table: Table, endpoints: seq<Endpoint>, op: string)
    requires forall k | k in table :: table[k] != []
    requires AddEndpoints(table, endpoints).Ok?
    ensures op in AddEndpoints(table, endpoints).value <==> Urls(AddEndpoints(table, endpoints).value, op) != []
    decreases |endpoints|
  {
    if endpoints != [] {
      var e := endpoints[0];
      var next := AddEndpoint(table, e).value;
      if IdsOf(e) != multiset{} {
        forall k | k in next
          ensures next[k] != []
        {
          RegisterUrls(table, QueryUrl(e), IdsOf(e), k);
        }
      }
      KeysHaveUrls(next, endpoints[1..], op);
    }
  }

  // ---------------------------------------------------------------------------
  // The number of URLs in the table

  /** All URLs of a table, summed over its keys. */
  ghost function TotalUrls(table: Table): nat
    decreases |table|
  {
    if table == map[] then 0
    else
      var op :| op in table;
      |table[op]| + TotalUrls(table - {op})
  }

  /** The sum does not depend on the key taken out first. */
  lemma TotalUrlsRemove(table: Table, op: string)
    requires op in table
    ensures TotalUrls(table) == |table[op]| + TotalUrls(table - {op})
    decreases |table|
  {
    var first :| first in table && TotalUrls(table) == |table[first]| + TotalUrls(table - {first});
    if first != op {
      TotalUrlsRemove(table - {first}, op);
      TotalUrlsRemove(table - {op}, first);
      assert table - {first} - {op} == table - {op} - {first};
    }
  }

  /** One append adds one URL. */
  lemma TotalUrlsAppend(table: Table, op: string, url: string)
    ensures TotalUrls(table[op := Urls(table, op) + [url]]) == TotalUrls(table) + 1
  {
    var grown := table[op := Urls(table, op) + [url]];
    TotalUrlsRemove(grown, op);
    if op in table {
      TotalUrlsRemove(table, op);
      assert grown - {op} == table - {op};
    } else {
      assert grown - {op} == table;
    }
  }

  /** Registering a multiset of ids adds one URL per occurrence. */
  lemma {:induction false} TotalUrlsRegister(table: Table, target: string, ids: multiset<string>)
    ensures TotalUrls(Register(table, target, ids)) == TotalUrls(table) + |ids|
    decreases |ids|
  {
    if ids == multiset{} {
      RegisterNothing(table, target);
    } else {
      var id :| id in ids;
      var rest := ids - multiset{id};
      assert rest + multiset{id} == ids;
      TotalUrlsRegister(table, target, rest);
      RegisterOneMore(table, target, rest, id);
      TotalUrlsAppend(Register(table, target, rest), id, target);
    }
  }

  lemma RegisterNothing(table: Table, target: string)
    ensures Register(table, target, multiset{}) == table
  {
    var r := Register(table, target, multiset{});
    forall op | op in table
      ensures r[op] == table[op]
    {
      RegisterUrls(table, target, multiset{}, op);
    }
  }

  lemma {:induction false} AddEndpointsTotal(table: Table, endpoints: seq<Endpoint>)
    requires AddEndpoints(table, endpoints).Ok?
    ensures TotalUrls(AddEndpoints(table, endpoints).value) == TotalUrls(table) + TotalIds(endpoints)
    decreases |endpoints|
  {
    if endpoints != [] {
      var e := endpoints[0];
      var next := AddEndpoint(table, e).value;
      if IdsOf(e) != multiset{} {
        TotalUrlsRegister(table, QueryUrl(e), IdsOf(e));
      }
      AddEndpointsTotal(next, endpoints[1..]);
    }
  }

  /** `SERVICES` holds as many URLs as all endpoints list operation ids. */
  lemma ServicesTotal(endpoints: seq<Endpoint>)
    requires BuildServices(endpoints).Ok?
    ensures TotalUrls(BuildServices(endpoints).value) == TotalIds(endpoints)
  {
    AddEndpointsTotal(map[], endpoints);
  }

  // ---------------------------------------------------------------------------
  // From the registry hits to the table

  /** The start-up code end to end: the records of the hits, the ones that
      advertise operations, and the table built from those. */
  function StartupServices(hits: seq<Value>): (r: Result<Table, PyError>)
    ensures r.Err? ==> r.error == TypeError
    ensures r.Ok? <==> && TrapiEndpoints(hits).Ok?
                       && var kept := OperationsEndpoints(TrapiEndpoints(hits).value);
                          forall i | 0 <= i < |kept| :: Registrable(kept[i])
  {
    var endpoints :- TrapiEndpoints(hits);
    AddEndpointsSucceeds(map[], OperationsEndpoints(endpoints));
    BuildServices(OperationsEndpoints(endpoints))
  }

  lemma KeptIsListed(endpoints: seq<Endpoint>, j: nat)
    requires j < |OperationsEndpoints(endpoints)|
    ensures OperationsEndpoints(endpoints)[j] in endpoints
  {
    var kept := OperationsEndpoints(endpoints);
    assert multiset(kept)[kept[j]] > 0;
  }

  lemma ListedIsKept(endpoints: seq<Endpoint>, i: nat)
    requires i < |endpoints| && endpoints[i].operations != Null
    ensures endpoints[i] in OperationsEndpoints(endpoints)
  {
    assert multiset(endpoints)[endpoints[i]] > 0;
  }

  lemma KeptIdIsListed(endpoints: seq<Endpoint>, op: string, e: Endpoint)
    requires e in endpoints && op in IdsOf(e)
    ensures exists i | 0 <= i < |endpoints| :: op in IdsOf(endpoints[i])
  {
    var i :| 0 <= i < |endpoints| && endpoints[i] == e;
    assert op in IdsOf(endpoints[i]);
  }

  lemma ListedIdIsKept(endpoints: seq<Endpoint>, op: string, i: nat)
    requires i < |endpoints| && op in IdsOf(endpoints[i])
    ensures exists j | 0 <= j < |OperationsEndpoints(endpoints)| :: op in IdsOf(OperationsEndpoints(endpoints)[j])
  {
    ListedIsKept(endpoints, i);
    var kept := OperationsEndpoints(endpoints);
    var j :| 0 <= j < |kept| && kept[j] == endpoints[i];
    assert op in IdsOf(kept[j]);
  }

  /** A record without operations registers nothing, so keeping only the
      records with operations keeps every id some record lists. */
  lemma OperationsEndpointsIds(endpoints: seq<Endpoint>, op: string)
    ensures (exists j | 0 <= j < |OperationsEndpoints(endpoints)| :: op in IdsOf(OperationsEndpoints(endpoints)[j]))
        <==> exists i | 0 <= i < |endpoints| :: op in IdsOf(endpoints[i])
  {
    var kept := OperationsEndpoints(endpoints);
    if exists j | 0 <= j < |kept| :: op in IdsOf(kept[j]) {
      var j :| 0 <= j < |kept| && op in IdsOf(kept[j]);
      KeptIsListed(endpoints, j);
      KeptIdIsListed(endpoints, op, kept[j]);
    }
    if exists i | 0 <= i < |endpoints| :: op in IdsOf(endpoints[i]) {
      var i :| 0 <= i < |endpoints| && op in IdsOf(endpoints[i]);
      ListedIdIsKept(endpoints, op, i);
    }
  }

  /** An id is in the table exactly when some hit's record lists it. */
  lemma StartupServicesKeys(hits: seq<Value>, op: string)
    requires StartupServices(hits).Ok?
    ensures op in StartupServices(hits).value <==>
              exists i | 0 <= i < |hits| :: op in IdsOf(ExtractEndpoint(hits[i]).value)
  {
    var endpoints := TrapiEndpoints(hits).value;
    ServicesKeysAndLists(OperationsEndpoints(endpoints), op);
    OperationsEndpointsIds(endpoints, op);
    assert forall i | 0 <= i < |hits| :: endpoints[i] == ExtractEndpoint(hits[i]).value;
  }

  // ---------------------------------------------------------------------------
  // The start-up loops, statement by statement

  /** The inner loop as written: one append per id occurrence, the ids taken
      in any order. */
  method AppendAll(table: Table, target: string, ids: multiset<string>) returns (r: Table)
    ensures r == Register(table, target, ids)
  {
    r := table;
    var pending := ids;
    RegisterNothing(table, target);
    assert ids - pending == multiset{};
    while pending != multiset{}
      invariant pending <= ids
      invariant r == Register(table, target, ids - pending)
      decreases |pending|
    {
      var op :| op in pending;
      RegisterOneMore(table, target, ids - pending, op);
      assert (ids - pending) + multiset{op} == ids - (pending - multiset{op});
      r := r[op := Urls(r, op) + [target]];
      pending := pending - multiset{op};
    }
    assert ids - pending == ids;
  }

  /** The outer loop as written: endpoints in discovery order; the first
      endpoint that cannot be registered raises. */
  method BuildServicesLoop(endpoints: seq<Endpoint>) returns (r: Result<Table, PyError>)
    ensures r == BuildServices(endpoints)
  {
    var table: Table := map[];
    for i := 0 to |endpoints|
      invariant AddEndpoints(table, endpoints[i..]) == BuildServices(endpoints)
    {
      var e := endpoints[i];
      assert endpoints[i..][0] == e && endpoints[i..][1..] == endpoints[i + 1..];
      var ids := OperationIds(e.operations);
      if ids.Err? {
        return Err(ids.error);
      }
      if ids.value != multiset{} {
        if !e.url.Str? {
          return Err(TypeError);
        }
        table := AppendAll(table, e.url.s + QuerySuffix, ids.value);
      }
    }
    assert endpoints[|endpoints|..] == [];
    return Ok(table);
  }
}

=== FILE: smartapi.dfy ===
/** The registry client's pure part: turning the `hits` of a SmartAPI registry
    query into endpoint records, and keeping the records that advertise
    workflow operations. The HTTP query itself is not modelled; the parsed
    `hits` list is the input. */
module SmartApi {
  import opened Json

  /** One record built per hit: always exactly the keys `url`, `operations`
      and `version`; `Null` stands for Python's `None`. */
  datatype Endpoint = Endpoint(url: Value, operations: Value, version: Value)

  // ---------------------------------------------------------------------------
  // Where a hit declares its server URL and its TRAPI fields

  /** `hit["servers"][0]["url"]` exists, each step a dict or a non-empty list. */
  ghost predicate HasServerUrl(hit: Value)
  {
    && hit.Obj? && "servers" in hit.fields
    && var servers := hit.fields["servers"];
       && servers.Arr? && |servers.items| > 0
       && servers.items[0].Obj? && "url" in servers.items[0].fields
  }

  ghost function ServerUrlOf(hit: Value): Value
    requires HasServerUrl(hit)
  {
    hit.fields["servers"].items[0].fields["url"]
  }

  /** The lookup of the server URL fails with a `KeyError` or an `IndexError`:
      no `servers`, an empty `servers` list (or string), a dict for `servers`,
      or a first server without `url`. */
  ghost predicate LacksServerUrl(hit: Value)
  {
    && hit.Obj?
    && ("servers" !in hit.fields
        || var servers := hit.fields["servers"];
           || servers.Obj?
           || (servers.Arr? && |servers.items| == 0)
           || (servers.Str? && |servers.s| == 0)
           || (servers.Arr? && |servers.items| > 0 && servers.items[0].Obj? && "url" !in servers.items[0].fields))
  }

  /** `hit["info"]["x-trapi"][field]` exists, each step a dict. */
  ghost predicate HasTrapiField(hit: Value, field: string)
  {
    && hit.Obj? && "info" in hit.fields
    && var info := hit.fields["info"];
       && info.Obj? && "x-trapi" in info.fields
       && var trapi := info.fields["x-trapi"];
          && trapi.Obj? && field in trapi.fields
  }

  ghost function TrapiFieldOf(hit: Value, field: string): Value
    requires HasTrapiField(hit, field)
  {
    hit.fields["info"].fields["x-trapi"].fields[field]
  }

  /** The lookup of the TRAPI field fails with a `KeyError`. */
  ghost predicate LacksTrapiField(hit: Value, field: string)
  {
    && hit.Obj?
    && ("info" !in hit.fields
        || var info := hit.fields["info"];
           && info.Obj?
           && ("x-trapi" !in info.fields
               || var trapi := info.fields["x-trapi"];
                  trapi.Obj? && field !in trapi.fields))
  }

  // ---------------------------------------------------------------------------
  // get_trapi_endpoints, after the HTTP call

  /** `hit["servers"][0]["url"]`, reading a `KeyError` or `IndexError` as None;
      any other exception escapes. */
  function ServerUrl(hit: Value): (r: Result<Value, PyError>)
    ensures HasServerUrl(hit) ==> r == Ok(ServerUrlOf(hit))
    ensures LacksServerUrl(hit) ==> r == Ok(Null)
    ensures r.Ok? <==> HasServerUrl(hit) || LacksServerUrl(hit)
    ensures r.Err? ==> r.error == TypeError
  {
    match GetPath(hit, [Name("servers"), Pos(0), Name("url")])
    case Ok(url) => Ok(url)
    case Err(KeyError(_)) => Ok(Null)
    case Err(IndexError) => Ok(Null)
    case Err(TypeError) => Err(TypeError)
  }

  /** `hit["info"]["x-trapi"][field]`, reading a `KeyError` as None. */
  function TrapiField(hit: Value, field: string): (r: Result<Value, PyError>)
    ensures HasTrapiField(hit, field) ==> r == Ok(TrapiFieldOf(hit, field))
    ensures LacksTrapiField(hit, field) ==> r == Ok(Null)
    ensures r.Ok? <==> HasTrapiField(hit, field) || LacksTrapiField(hit, field)
    ensures r.Err? ==> r.error == TypeError
  {
    var lookup: Result<Value, PyError> :=
      var info :- Get(hit, Name("info"));
      var trapi :- Get(info, Name("x-trapi"));
      Get(trapi, Name(field));
    match lookup
    case Ok(v) => Ok(v)
    case Err(KeyError(_)) => Ok(Null)
    case Err(e) => Err(e)
  }

  /** Two TRAPI fields are read along the same path: if one lookup does not
      raise, neither does the other. */
  lemma TrapiFieldsReadTogether(hit: Value, a: string, b: string)
    ensures TrapiField(hit, a).Ok? ==> TrapiField(hit, b).Ok?
  {
  }

  /** The record the loop body builds for one hit. */
  function ExtractEndpoint(hit: Value): (r: Result<Endpoint, PyError>)
    ensures r.Ok? <==> && (HasServerUrl(hit) || LacksServerUrl(hit))
                       && (HasTrapiField(hit, "version") || LacksTrapiField(hit, "version"))
                       && (HasTrapiField(hit, "operations") || LacksTrapiField(hit, "operations"))
    ensures r.Err? ==> r.error == TypeError
    ensures r.Ok? && HasServerUrl(hit) ==> r.value.url == ServerUrlOf(hit)
    ensures r.Ok? && LacksServerUrl(hit) ==> r.value.url == Null
    ensures r.Ok? && HasTrapiField(hit, "version") ==> r.value.version == TrapiFieldOf(hit, "version")
    ensures r.Ok? && LacksTrapiField(hit, "version") ==> r.value.version == Null
    ensures r.Ok? && HasTrapiField(hit, "operations") ==> r.value.operations == TrapiFieldOf(hit, "operations")
    ensures r.Ok? && LacksTrapiField(hit, "operations") ==> r.value.operations == Null
  {
    var url :- ServerUrl(hit);
    var version :- TrapiField(hit, "version");
    // both lookups walk the same dicts, so this one cannot raise any more
    TrapiFieldsReadTogether(hit, "version", "operations");
    var operations := TrapiField(hit, "operations").value;
    Ok(Endpoint(url, operations, version))
  }

  /** The loop over the hits: one record per hit, in hit order; an exception
      raised for any hit escapes the whole call. */
  function TrapiEndpoints(hits: seq<Value>): (r: Result<seq<Endpoint>, PyError>)
    ensures r.Ok? <==> forall i | 0 <= i < |hits| :: ExtractEndpoint(hits[i]).Ok?
    ensures r.Err? ==> r.error == TypeError
    ensures r.Ok? ==> |r.value| == |hits|
    ensures r.Ok? ==> forall i | 0 <= i < |hits| :: r.value[i] == ExtractEndpoint(hits[i]).value
  {
    if hits == [] then Ok([])
    else
      var first :- ExtractEndpoint(hits[0]);
      var rest :- TrapiEndpoints(hits[1..]);
      Ok([first] + rest)
  }

  // ---------------------------------------------------------------------------
  // get_operations_endpoints

  /** `sub` is `s` with some elements left out, the rest in their order. */
  predicate IsSubsequence<T(==)>(sub: seq<T>, s: seq<T>)
    decreases |s|
  {
    if sub == [] then true
    else if s == [] then false
    else (sub[0] == s[0] && IsSubsequence(sub[1..], s[1..])) || IsSubsequence(sub, s[1..])
  }

  /** The records whose `operations` is not None, in their original order. */
  function OperationsEndpoints(endpoints: seq<Endpoint>): (r: seq<Endpoint>)
    ensures forall e | e in r :: e.operations != Null
    ensures forall e :: multiset(r)[e] == if e.operations != Null then multiset(endpoints)[e] else 0
    ensures IsSubsequence(r, endpoints)
  {
    if endpoints == [] then []
    else
      var rest := OperationsEndpoints(endpoints[1..]);
      assert endpoints == [endpoints[0]] + endpoints[1..];
      if endpoints[0].operations != Null then [endpoints[0]] + rest else rest
  }
}

=== FILE: util.dfy ===
/** The two pure JSON transforms of the utility module: `drop_nulls`, which the
    workflow loop applies to every provider response, and `elide_curies`, which
    shortens long CURIE lists in payloads before they are logged. */
module Util {
  import opened Json

  // ---------------------------------------------------------------------------
  // drop_nulls

  /** No dict entry anywhere in `v`, looking through dicts and lists, holds null.
      Null list elements are allowed: `drop_nulls` keeps them. */
  predicate NoNulls(v: Value)
  {
    match v
    case Arr(items) => forall i | 0 <= i < |items| :: NoNulls(items[i])
    case Obj(m) => forall k | k in m :: m[k] != Null && NoNulls(m[k])
    case _ => true
  }

  /** Recursively removes null-valued dict entries, walking lists element by
      element; every other value is returned as it is. */
  function DropNulls(v: Value): (r: Value)
    ensures NoNulls(r)
    ensures r.Arr? <==> v.Arr?
    ensures r.Obj? <==> v.Obj?
    ensures v.Arr? ==> |r.items| == |v.items|
    ensures v.Arr? ==> forall i | 0 <= i < |v.items| :: r.items[i] == Null <==> v.items[i] == Null
    ensures v.Obj? ==> r.fields.Keys == set k | k in v.fields && v.fields[k] != Null
    ensures !v.Arr? && !v.Obj? ==> r == v
  {
    match v
    case Arr(items) => Arr(seq(|items|, i requires 0 <= i < |items| => DropNulls(items[i])))
    case Obj(m) => Obj(map k | k in m && m[k] != Null :: DropNulls(m[k]))
    case _ => v
  }

  /** A value that holds no null entry is left exactly as it is. */
  lemma {:induction false} DropNullsKeepsNullFree(v: Value)
    requires NoNulls(v)
    ensures DropNulls(v) == v
  {
    match v
    case Arr(items) =>
      forall i | 0 <= i < |items|
        ensures DropNulls(items[i]) == items[i]
      {
        DropNullsKeepsNullFree(items[i]);
      }
      assert DropNulls(v).items == items;
    case Obj(m) =>
      forall k | k in m
        ensures DropNulls(m[k]) == m[k]
      {
        DropNullsKeepsNullFree(m[k]);
      }
      assert DropNulls(v).fields == m;
    case _ =>
  }

  /** The values `drop_nulls` leaves unchanged are exactly the null-free ones. */
  lemma {:induction false} DropNullsFixedPoints(v: Value)
    ensures DropNulls(v) == v <==> NoNulls(v)
  {
    if NoNulls(v) {
      DropNullsKeepsNullFree(v);
    }
  }

  /** Cleaning twice is the same as cleaning once. */
  lemma {:induction false} DropNullsIdempotent(v: Value)
    ensures DropNulls(DropNulls(v)) == DropNulls(v)
  {
    DropNullsKeepsNullFree(DropNulls(v));
  }

  /** `small` is `big` with some dict entries deleted, at any depth: a list
      keeps its length and each element is pruned in place; a dict keeps a
      subset of its keys, each with a pruned value; anything else is equal. */
  ghost predicate Pruned(small: Value, big: Value)
    decreases big
  {
    match big
    case Arr(items) =>
      && small.Arr?
      && |small.items| == |items|
      && forall i | 0 <= i < |items| :: Pruned(small.items[i], items[i])
    case Obj(m) =>
      && small.Obj?
      && small.fields.Keys <= m.Keys
      && forall k | k in small.fields :: Pruned(small.fields[k], m[k])
    case _ => small == big
  }

  /** Pruning is a partial order: two values that prune each other are equal. */
  lemma {:induction false} PrunedAntisymmetric(a: Value, b: Value)
    requires Pruned(a, b) && Pruned(b, a)
    ensures a == b
    decreases b
  {
    match b
    case Arr(items) =>
      forall i | 0 <= i < |items|
        ensures a.items[i] == items[i]
      {
        PrunedAntisymmetric(a.items[i], items[i]);
      }
      assert a.items == items;
    case Obj(m) =>
      forall k | k in m
        ensures a.fields[k] == m[k]
      {
        PrunedAntisymmetric(a.fields[k], m[k]);
      }
      assert a.fields == m;
    case _ =>
  }

  /** `drop_nulls` only deletes dict entries: everything it keeps is the
      original data, in its original place. */
  lemma {:induction false} DropNullsPrunes(v: Value)
    ensures Pruned(DropNulls(v), v)
    decreases v
  {
    match v
    case Arr(items) =>
      forall i | 0 <= i < |items|
        ensures Pruned(DropNulls(v).items[i], items[i])
      {
        DropNullsPrunes(items[i]);
      }
    case Obj(m) =>
      forall k | k in DropNulls(v).fields
        ensures Pruned(DropNulls(v).fields[k], m[k])
      {
        DropNullsPrunes(m[k]);
      }
    case _ =>
  }

  /** Every null-free pruning of `v` is a pruning of `drop_nulls(v)`, which is
      therefore the greatest one: only null entries are deleted. */
  lemma {:induction false} DropNullsGreatest(r: Value, v: Value)
    requires Pruned(r, v) && NoNulls(r)
    ensures Pruned(r, DropNulls(v))
    decreases v
  {
    match v
    case Arr(items) =>
      forall i | 0 <= i < |items|
        ensures Pruned(r.items[i], DropNulls(v).items[i])
      {
        DropNullsGreatest(r.items[i], items[i]);
      }
    case Obj(m) =>
      forall k | k in r.fields
        ensures k in DropNulls(v).fields && Pruned(r.fields[k], DropNulls(v).fields[k])
      {
        DropNullsGreatest(r.fields[k], m[k]);
      }
    case _ =>
  }

  /** `drop_nulls(v)` is the only null-free pruning of `v` that every other
      null-free pruning of `v` prunes. */
  lemma {:induction false} DropNullsUnique(r: Value, v: Value)
    requires Pruned(r, v) && NoNulls(r)
    requires Pruned(DropNulls(v), r)
    ensures r == DropNulls(v)
  {
    DropNullsGreatest(r, v);
    PrunedAntisymmetric(r, DropNulls(v));
  }

  // ---------------------------------------------------------------------------
  // Decimal rendering of a count, as in an f-string

  function DigitChar(d: nat): (c: char)
    requires d < 10
    ensures '0' <= c <= '9' && c as int - '0' as int == d
  {
    "0123456789"[d]
  }

  predicate AllDigits(s: string)
  {
    forall i | 0 <= i < |s| :: '0' <= s[i] <= '9'
  }

  /** The number a string of decimal digits denotes. */
  function DigitsValue(s: string): nat
    requires AllDigits(s)
  {
    if s == [] then 0
    else DigitsValue(s[..|s| - 1]) * 10 + (s[|s| - 1] as int - '0' as int)
  }

  /** `str(n)` for a non-negative integer: digits only, no leading zero. */
  function Decimal(n: nat): (s: string)
    ensures 1 <= |s|
    ensures AllDigits(s)
    ensures |s| == 1 || s[0] != '0'
    ensures n < 10 <==> |s| == 1
  {
    if n < 10 then [DigitChar(n)] else Decimal(n / 10) + [DigitChar(n % 10)]
  }

  /** Reading back the rendered digits gives the number. */
  lemma {:induction false} DecimalRoundTrip(n: nat)
    ensures DigitsValue(Decimal(n)) == n
  {
    if n >= 10 {
      DecimalRoundTrip(n / 10);
      var s := Decimal(n);
      assert s[..|s| - 1] == Decimal(n / 10);
    }
  }

  // ---------------------------------------------------------------------------
  // elide_curies

  /** Query-graph nodes with more than this many CURIEs have them elided. */
  const MaxShownCuries: nat := 10

  /** The string that replaces a node's `ids` when it holds `n` CURIEs. */
  function Marker(n: nat): string
  {
    "**" + Decimal(n) + " CURIEs not shown for brevity**"
  }

  /** The marker is always longer than the threshold, whatever the count. */
  lemma MarkerLength(n: nat)
    ensures |Marker(n)| == 33 + |Decimal(n)|
    ensures |Marker(n)| > MaxShownCuries
  {
  }

  /** `len(qnode.get("ids", None) or [])`: an absent or falsy `ids` counts as
      zero, a string counts its characters, a dict its keys; a non-zero number
      or `true` has no length. */
  function CurieCount(node: map<string, Value>): (r: Result<nat, PyError>)
    ensures "ids" !in node ==> r == Ok(0)
    ensures "ids" in node && node["ids"].Arr? ==> r == Ok(|node["ids"].items|)
    ensures "ids" in node && node["ids"].Str? ==> r == Ok(|node["ids"].s|)
    ensures "ids" in node && node["ids"].Obj? ==> r == Ok(|node["ids"].fields|)
    ensures "ids" in node && !Truthy(node["ids"]) ==> r == Ok(0)
    ensures r.Err? <==> "ids" in node && Truthy(node["ids"]) && (node["ids"].Num? || node["ids"].Bool?)
  {
    var ids := if "ids" in node then node["ids"] else Null;
    Len(Or(ids, Arr([])))
  }

  /** The loop body can handle the node: it is a dict, so `.get` works, and
      its `ids` has a length. */
  predicate Processable(node: Value)
  {
    node.Obj? && CurieCount(node.fields).Ok?
  }

  /** What `elide_curies` promises of one node, field by field: the same
      keys; every field other than `ids` keeps its value; `ids` becomes the
      marker for its count exactly when the count is above the threshold,
      and keeps its value otherwise. */
  ghost predicate Elided(before: Value, after: Value)
  {
    && Processable(before)
    && after.Obj?
    && after.fields.Keys == before.fields.Keys
    && var n := CurieCount(before.fields).value;
       forall f | f in before.fields ::
         after.fields[f] == if f == "ids" && n > MaxShownCuries then Str(Marker(n)) else before.fields[f]
  }

  /** One node after the loop body of `elide_curies`; `None` when the body
      would raise. */
  function ElideNode(node: Value): (r: Option<Value>)
    ensures r.Some? <==> Processable(node)
    ensures r.Some? ==> Elided(node, r.value)
  {
    match node
    case Obj(m) =>
      var count := CurieCount(m);
      if count.Err? then None
      else if count.value > MaxShownCuries then
        // a positive count means the node has `ids`, so no key is added
        assert "ids" in m;
        Some(Obj(m["ids" := Str(Marker(count.value))]))
      else Some(node)
    case _ => None
  }

  /** The loop over `nodes.values()`: every node is processed, and any node the
      body cannot process raises. */
  function ElideNodes(nodes: map<string, Value>): (r: Result<map<string, Value>, PyError>)
    ensures r.Ok? <==> forall k | k in nodes :: Processable(nodes[k])
    ensures r.Err? ==> r.error == TypeError
    ensures r.Ok? ==> r.value.Keys == nodes.Keys && forall k | k in nodes :: Elided(nodes[k], r.value[k])
  {
    if forall k | k in nodes :: ElideNode(nodes[k]).Some? then
      Ok(map k | k in nodes :: ElideNode(nodes[k]).value)
    else
      Err(TypeError)
  }

  /** `payload["message"]["query_graph"]["nodes"]` exists, every step a dict. */
  ghost predicate HasQueryNodes(payload: Value)
  {
    && payload.Obj? && "message" in payload.fields
    && var message := payload.fields["message"];
       && message.Obj? && "query_graph" in message.fields
       && var queryGraph := message.fields["query_graph"];
          && queryGraph.Obj? && "nodes" in queryGraph.fields
          && queryGraph.fields["nodes"].Obj?
  }

  ghost function QueryNodes(payload: Value): map<string, Value>
    requires HasQueryNodes(payload)
  {
    payload.fields["message"].fields["query_graph"].fields["nodes"].fields
  }

  /** `payload` with its query-graph nodes replaced by `nodes`. */
  function WithQueryNodes(payload: Value, nodes: map<string, Value>): (r: Value)
    requires HasQueryNodes(payload)
    ensures HasQueryNodes(r) && QueryNodes(r) == nodes
  {
    var message := payload.fields["message"];
    var queryGraph := message.fields["query_graph"];
    Obj(payload.fields["message" := Obj(message.fields["query_graph" := Obj(queryGraph.fields["nodes" := Obj(nodes)])])])
  }

  /** Putting back the nodes a payload already has changes nothing. */
  lemma WithOwnQueryNodes(payload: Value)
    requires HasQueryNodes(payload)
    ensures WithQueryNodes(payload, QueryNodes(payload)) == payload
  {
    var message := payload.fields["message"];
    var queryGraph := message.fields["query_graph"];
    assert queryGraph.fields["nodes" := Obj(QueryNodes(payload))] == queryGraph.fields;
    assert message.fields["query_graph" := queryGraph] == message.fields;
    assert payload.fields["message" := message] == payload.fields;
  }

  /** Replacing the nodes twice keeps only the second replacement. */
  lemma WithQueryNodesTwice(payload: Value, a: map<string, Value>, b: map<string, Value>)
    requires HasQueryNodes(payload)
    ensures WithQueryNodes(WithQueryNodes(payload, a), b) == WithQueryNodes(payload, b)
  {
    var message := payload.fields["message"];
    var queryGraph := message.fields["query_graph"];
    var queryGraphA := Obj(queryGraph.fields["nodes" := Obj(a)]);
    var messageA := Obj(message.fields["query_graph" := queryGraphA]);
    assert queryGraphA.fields["nodes" := Obj(b)] == queryGraph.fields["nodes" := Obj(b)];
    assert messageA.fields["query_graph" := Obj(queryGraph.fields["nodes" := Obj(b)])]
        == message.fields["query_graph" := Obj(queryGraph.fields["nodes" := Obj(b)])];
  }

  /** Python's `sub in s` on strings. */
  predicate Contains(s: string, sub: string)
  {
    exists i | 0 <= i <= |s| - |sub| :: OccursAt(s, sub, i)
  }

  predicate OccursAt(s: string, sub: string, i: int)
  {
    0 <= i <= |s| - |sub| && s[i..i + |sub|] == sub
  }

  /** The part of `elide_curies` that runs when the payload has a "message":
      look up `message.query_graph.nodes` and rewrite each node. */
  function ElideQueryGraph(payload: map<string, Value>): (r: Result<Value, PyError>)
    requires "message" in payload
    // a missing key on the way to the nodes is a KeyError for that key
    ensures payload["message"].Obj? && "query_graph" !in payload["message"].fields
            ==> r == Err(KeyError(Name("query_graph")))
    ensures payload["message"].Obj? && "query_graph" in payload["message"].fields
            && payload["message"].fields["query_graph"].Obj?
            && "nodes" !in payload["message"].fields["query_graph"].fields
            ==> r == Err(KeyError(Name("nodes")))
    ensures !HasQueryNodes(Obj(payload)) ==> r.Err?
    // success exactly when every node can be counted
    ensures HasQueryNodes(Obj(payload)) ==>
              (r.Ok? <==> forall k | k in QueryNodes(Obj(payload)) :: Processable(QueryNodes(Obj(payload))[k]))
    // on success only the nodes change, each as `Elided` says
    ensures r.Ok? ==>
              && HasQueryNodes(Obj(payload))
              && HasQueryNodes(r.value)
              && WithQueryNodes(r.value, QueryNodes(Obj(payload))) == Obj(payload)
              && QueryNodes(r.value).Keys == QueryNodes(Obj(payload)).Keys
              && forall k | k in QueryNodes(Obj(payload)) :: Elided(QueryNodes(Obj(payload))[k], QueryNodes(r.value)[k])
  {
    var queryGraph :- Get(payload["message"], Name("query_graph"));
    var nodes :- Get(queryGraph, Name("nodes"));
    if !nodes.Obj? then Err(TypeError)
    else
      assert nodes.fields == QueryNodes(Obj(payload));
      var elided :- ElideNodes(nodes.fields);
      WithOwnQueryNodes(Obj(payload));
      WithQueryNodesTwice(Obj(payload), elided, nodes.fields);
      Ok(WithQueryNodes(Obj(payload), elided))
  }

  /** A copy of `payload` in which every query-graph node whose `ids` holds more
      than ten CURIEs has them replaced by a marker. Values are immutable, so the
      deep copy of the original is implicit and the input is never changed. */
  function ElideCuries(payload: Value): (r: Result<Value, PyError>)
    // no "message": the copy is returned as it is
    ensures payload.Obj? && "message" !in payload.fields ==> r == Ok(payload)
    ensures payload.Obj? && "message" in payload.fields ==> r == ElideQueryGraph(payload.fields)
    // `in` on a list or string is membership or substring; anything else raises
    ensures payload.Arr? ==> (r.Ok? <==> Str("message") !in payload.items)
    ensures payload.Str? ==> (r.Ok? <==> !Contains(payload.s, "message"))
    ensures r.Ok? && !payload.Obj? ==> r.value == payload
    ensures r.Err? && !payload.Obj? ==> r.error == TypeError
    ensures payload.Null? || payload.Bool? || payload.Num? ==> r == Err(TypeError)
  {
    match payload
    case Obj(m) => if "message" !in m then Ok(payload) else ElideQueryGraph(m)
    case Arr(items) => if Str("message") in items then Err(TypeError) else Ok(payload)
    case Str(s) => if Contains(s, "message") then Err(TypeError) else Ok(payload)
    case _ => Err(TypeError)
  }

  /** A node whose `ids` is a list longer than ten gets the marker for that
      count; a node whose `ids` is absent, null or a list of at most ten stays
      as it is. */
  lemma ElideCuriesIdLists(payload: Value, k: string)
    requires ElideCuries(payload).Ok? && HasQueryNodes(payload) && k in QueryNodes(payload)
    ensures var before := QueryNodes(payload)[k];
            var after := QueryNodes(ElideCuries(payload).value)[k];
            && before.Obj?
            && ("ids" !in before.fields || before.fields["ids"] == Null ==> after == before)
            && (("ids" in before.fields && before.fields["ids"].Arr? && |before.fields["ids"].items| <= MaxShownCuries)
                  ==> after == before)
            && ("ids" in before.fields && before.fields["ids"].Arr? && |before.fields["ids"].items| > MaxShownCuries ==>
                  after == Obj(before.fields["ids" := Str(Marker(|before.fields["ids"].items|))]))
  {
  }

  /** A payload whose query graph holds the one node `node`, named "n". */
  function SingleNodePayload(node: Value): (r: Value)
    ensures HasQueryNodes(r) && QueryNodes(r) == map["n" := node]
  {
    Obj(map["message" := Obj(map["query_graph" := Obj(map["nodes" := Obj(map["n" := node])])])])
  }

  /** Replacing the one node of a one-node payload. */
  lemma ReplaceSingleNode(a: Value, b: Value)
    ensures WithQueryNodes(SingleNodePayload(a), map["n" := b]) == SingleNodePayload(b)
  {
    var nodesA := map["nodes" := Obj(map["n" := a])];
    var nodesB := map["nodes" := Obj(map["n" := b])];
    assert nodesA["nodes" := Obj(map["n" := b])] == nodesB;
    var graphA := map["query_graph" := Obj(nodesA)];
    assert graphA["query_graph" := Obj(nodesB)] == map["query_graph" := Obj(nodesB)];
    var messageA := map["message" := Obj(graphA)];
    assert messageA["message" := Obj(map["query_graph" := Obj(nodesB)])]
        == map["message" := Obj(map["query_graph" := Obj(nodesB)])];
  }

  /** When every node can be processed, the payload gets the processed nodes
      and nothing else changes. */
  lemma ElideQueryGraphNodes(payload: map<string, Value>)
    requires "message" in payload && HasQueryNodes(Obj(payload))
    requires ElideNodes(QueryNodes(Obj(payload))).Ok?
    ensures ElideQueryGraph(payload) == Ok(WithQueryNodes(Obj(payload), ElideNodes(QueryNodes(Obj(payload))).value))
  {
  }

  lemma ElideOneNode(node: Value)
    requires ElideNode(node).Some?
    ensures ElideNodes(map["n" := node]) == Ok(map["n" := ElideNode(node).value])
  {
    var elided := ElideNodes(map["n" := node]);
    var expected := map["n" := ElideNode(node).value];
    assert elided.Ok? && elided.value.Keys == expected.Keys;
    assert forall k | k in expected :: elided.value[k] == expected[k];
    assert elided.value == expected;
  }

  /** Eliding a one-node payload elides its node. */
  lemma ElideSingleNode(node: Value)
    requires ElideNode(node).Some?
    ensures ElideCuries(SingleNodePayload(node)) == Ok(SingleNodePayload(ElideNode(node).value))
  {
    var payload := SingleNodePayload(node);
    ElideOneNode(node);
    ElideQueryGraphNodes(payload.fields);
    ReplaceSingleNode(node, ElideNode(node).value);
  }

  /** The marker for 11 CURIEs is 35 characters long, and differs from the
      marker for 35. */
  lemma MarkersOfElevenAndThirtyFive()
    ensures |Marker(11)| == 35
    ensures Marker(35) != Marker(11)
  {
    assert Decimal(11) == "11";
    assert Decimal(35) == "35";
    assert Marker(35)[2] != Marker(11)[2];
  }

  /** Eliding is not idempotent: the marker is itself a string longer than ten
      characters, so a second pass replaces it with a marker for its own length
      (35 for a count of 11). */
  lemma ElideCuriesNotIdempotent()
    ensures exists payload :: ElideCuries(payload).Ok? && ElideCuries(ElideCuries(payload).value) != ElideCuries(payload)
  {
    var node := Obj(map["ids" := Arr(seq(11, _ => Str("x")))]);
    var once := Obj(map["ids" := Str(Marker(11))]);
    var twice := Obj(map["ids" := Str(Marker(35))]);
    MarkersOfElevenAndThirtyFive();
    assert node.fields["ids" := Str(Marker(11))] == once.fields;
    assert ElideNode(node) == Some(once);
    assert once.fields["ids" := Str(Marker(35))] == twice.fields;
    assert ElideNode(once) == Some(twice);
    ElideSingleNode(node);
    ElideSingleNode(once);
    assert SingleNodePayload(twice) != SingleNodePayload(once) by {
      assert QueryNodes(SingleNodePayload(twice))["n"] != QueryNodes(SingleNodePayload(once))["n"];
    }
    assert ElideCuries(ElideCuries(SingleNodePayload(node)).value) != ElideCuries(SingleNodePayload(node));
  }
}

=== FILE: workflow.dfy ===
/** The workflow runner's `/query` handler: each operation of the workflow is
    posted, with the current message, to the first URL registered for its id;
    the cleaned message of each reply feeds the next step. The HTTP client is a
    function parameter, so a run is determined by the table, the provider and
    the request. */
module Workflow {
  import opened Json
  import opened Util
  import opened Services
  import SmartApi

  /** One workflow operation as the validated request holds it: its id and the
      other members of the operation object. */
  datatype Operation = Operation(id: string, rest: map<string, Value>)

  /** The operation object as it is sent. */
  function OperationJson(op: Operation): (r: Value)
    ensures r.Obj? && "id" in r.fields && r.fields["id"] == Str(op.id)
  {
    Obj(op.rest["id" := Str(op.id)])
  }

  datatype Query = Query(message: Value, workflow: seq<Operation>)

  datatype Response = Response(message: Value, workflow: seq<Operation>)

  /** A provider's answer: the status code, and the body when it parses as
      JSON (`None` otherwise). */
  datatype Reply = Reply(status: int, body: Option<Value>)

  /** The HTTP client: `client.post(url, json=body)`. */
  type Provider = (string, Value) -> Reply

  /** One POST the runner makes. */
  datatype Post = Post(url: string, message: Value, operation: Operation)

  /** The body of a POST: the current message and a workflow of exactly the
      one operation. */
  function PostBody(p: Post): (r: Value)
    ensures r.Obj? && r.fields.Keys == {"message", "workflow"}
    ensures r.fields["message"] == p.message
    ensures r.fields["workflow"].Arr? && |r.fields["workflow"].items| == 1
    ensures r.fields["workflow"].items[0] == OperationJson(p.operation)
  {
    Obj(map["message" := p.message, "workflow" := Arr([OperationJson(p.operation)])])
  }

  function Send(provider: Provider, p: Post): Reply
  {
    provider(p.url, PostBody(p))
  }

  /** Why a run stops early. */
  datatype Failure =
    | UnknownOperation(id: string)    // `SERVICES[id]` raises KeyError
    | NoProvider(id: string)          // `[0]` of an empty list raises IndexError
    | ErrorStatus(status: int)        // the ValueError raised for a status above 200
    | UndecodableBody                 // `response.json()` raises
    | MalformedReply(error: PyError)  // `["message"]` of the reply raises

  /** The highest status code the loop accepts. */
  const MaxAcceptedStatus: int := 200

  /** `SERVICES[id][0]`: only the first registered URL is ever used. */
  function FirstUrl(services: Table, id: string): (r: Result<string, Failure>)
    ensures r.Ok? <==> id in services && services[id] != []
    ensures r.Ok? ==> r.value == services[id][0]
    ensures id !in services ==> r == Err(UnknownOperation(id))
    ensures id in services && services[id] == [] ==> r == Err(NoProvider(id))
  {
    if id !in services then Err(UnknownOperation(id))
    else if services[id] == [] then Err(NoProvider(id))
    else Ok(services[id][0])
  }

  /** What the loop makes of a reply: a status above 200 aborts, otherwise
      the next message is `drop_nulls(response.json()["message"])`. */
  function NextMessage(reply: Reply): (r: Result<Value, Failure>)
    ensures reply.status > MaxAcceptedStatus ==> r == Err(ErrorStatus(reply.status))
    ensures r.Ok? <==> && reply.status <= MaxAcceptedStatus
                       && reply.body.Some?
                       && Get(reply.body.value, Name("message")).Ok?
    ensures r.Ok? ==> r.value == DropNulls(reply.body.value.fields["message"])
    ensures r.Ok? ==> NoNulls(r.value)
  {
    if reply.status > MaxAcceptedStatus then Err(ErrorStatus(reply.status))
    else if reply.body.None? then Err(UndecodableBody)
    else
      match Get(reply.body.value, Name("message"))
      case Err(e) => Err(MalformedReply(e))
      case Ok(message) => Ok(DropNulls(message))
  }

  /** A run: the POSTs made, in order, and how it ended. */
  datatype Run = Run(posts: seq<Post>, outcome: Result<Value, Failure>)

  /** The loop over the remaining operations, starting from `message`. */
  function RunSteps(services: Table, provider: Provider, message: Value, ops: seq<Operation>): (r: Run)
    decreases |ops|
    ensures |r.posts| <= |ops|
    ensures ops == [] ==> r.outcome == Ok(message)
    ensures r.outcome.Ok? ==> |r.posts| == |ops|
    ensures r.outcome.Ok? && ops != [] ==> NoNulls(r.outcome.value)
  {
    if ops == [] then Run([], Ok(message))
    else
      var url := FirstUrl(services, ops[0].id);
      if url.Err? then Run([], Err(url.error))
      else
        var post := Post(url.value, message, ops[0]);
        var next := NextMessage(Send(provider, post));
        if next.Err? then Run([post], Err(next.error))
        else
          var rest := RunSteps(services, provider, next.value, ops[1..]);
          Run([post] + rest.posts, rest.outcome)
  }

  /** The first remaining step of a run, unfolded. */
  lemma RunStepsStep(services: Table, provider: Provider, message: Value, ops: seq<Operation>)
    requires ops != []
    ensures FirstUrl(services, ops[0].id).Err? ==>
              RunSteps(services, provider, message, ops) == Run([], Err(FirstUrl(services, ops[0].id).error))
    ensures FirstUrl(services, ops[0].id).Ok? ==>
              var post := Post(FirstUrl(services, ops[0].id).value, message, ops[0]);
              var next := NextMessage(Send(provider, post));
              && (next.Err? ==> RunSteps(services, provider, message, ops) == Run([post], Err(next.error)))
              && (next.Ok? ==>
                    var rest := RunSteps(services, provider, next.value, ops[1..]);
                    RunSteps(services, provider, message, ops) == Run([post] + rest.posts, rest.outcome))
  {
  }

  /** One POST per step reached, in step order, each to the step's first URL
      and carrying the step's operation. */
  lemma {:induction false} RunStepsTargets(services: Table, provider: Provider, message: Value, ops: seq<Operation>)
    ensures var r := RunSteps(services, provider, message, ops);
            forall i | 0 <= i < |r.posts| ::
              r.posts[i].operation == ops[i] && FirstUrl(services, ops[i].id) == Ok(r.posts[i].url)
    decreases |ops|
  {
    if ops != [] {
      RunStepsStep(services, provider, message, ops);
      var url := FirstUrl(services, ops[0].id);
      if url.Ok? {
        var next := NextMessage(Send(provider, Post(url.value, message, ops[0])));
        if next.Ok? {
          RunStepsTargets(services, provider, next.value, ops[1..]);
          assert forall i | 1 <= i < |ops| :: ops[i] == ops[1..][i - 1];
        }
      }
    }
  }

  /** The first POST carries the caller's message unchanged; every later one
      carries the cleaned message of the reply before it. */
  lemma {:induction false} RunStepsMessages(services: Table, provider: Provider, message: Value, ops: seq<Operation>)
    ensures var r := RunSteps(services, provider, message, ops);
            |r.posts| > 0 ==> r.posts[0].message == message
    ensures var r := RunSteps(services, provider, message, ops);
            forall i | 0 <= i < |r.posts| - 1 :: NextMessage(Send(provider, r.posts[i])) == Ok(r.posts[i + 1].message)
    decreases |ops|
  {
    if ops != [] {
      RunStepsStep(services, provider, message, ops);
      var url := FirstUrl(services, ops[0].id);
      if url.Ok? {
        var post := Post(url.value, message, ops[0]);
        var next := NextMessage(Send(provider, post));
        if next.Ok? {
          RunStepsMessages(services, provider, next.value, ops[1..]);
        }
      }
    }
  }

  /** The reply to any step but the last was accepted. */
  lemma ChainedReply(services: Table, provider: Provider, message: Value, ops: seq<Operation>, i: nat)
    requires i + 1 < |RunSteps(services, provider, message, ops).posts|
    ensures var r := RunSteps(services, provider, message, ops);
            NextMessage(Send(provider, r.posts[i])) == Ok(r.posts[i + 1].message)
  {
    RunStepsMessages(services, provider, message, ops);
  }

  /** A run that makes every POST, or whose last reply is refused, ends with
      what the last reply yields. */
  lemma {:induction false} RunStepsLastReply(services: Table, provider: Provider, message: Value, ops: seq<Operation>)
    ensures var r := RunSteps(services, provider, message, ops);
            |r.posts| > 0 && (|r.posts| == |ops| || NextMessage(Send(provider, r.posts[|r.posts| - 1])).Err?)
            ==> r.outcome == NextMessage(Send(provider, r.posts[|r.posts| - 1]))
    decreases |ops|
  {
    if ops != [] {
      RunStepsStep(services, provider, message, ops);
      var url := FirstUrl(services, ops[0].id);
      if url.Ok? {
        var post := Post(url.value, message, ops[0]);
        var next := NextMessage(Send(provider, post));
        if next.Ok? {
          RunStepsLastReply(services, provider, next.value, ops[1..]);
        }
      }
    }
  }

  /** No POST was made yet, or the reply to the last one was accepted. */
  predicate LastAccepted(provider: Provider, posts: seq<Post>)
  {
    posts == [] || NextMessage(Send(provider, posts[|posts| - 1])).Ok?
  }

  /** A run that stops before its last step although every reply so far was
      accepted stops because the next step's id has no URL. */
  lemma {:induction false} RunStepsNoUrl(services: Table, provider: Provider, message: Value, ops: seq<Operation>)
    ensures var r := RunSteps(services, provider, message, ops);
            |r.posts| < |ops| && LastAccepted(provider, r.posts)
            ==> FirstUrl(services, ops[|r.posts|].id).Err?
                && r.outcome == Err(FirstUrl(services, ops[|r.posts|].id).error)
    decreases |ops|
  {
    if ops != [] {
      var url := FirstUrl(services, ops[0].id);
      if url.Ok? {
        var post := Post(url.value, message, ops[0]);
        var next := NextMessage(Send(provider, post));
        if next.Ok? {
          var rest := RunSteps(services, provider, next.value, ops[1..]);
          var r := RunSteps(services, provider, message, ops);
          assert r.posts == [post] + rest.posts && r.outcome == rest.outcome;
          if |r.posts| < |ops| && LastAccepted(provider, r.posts) {
            RunStepsNoUrl(services, provider, next.value, ops[1..]);
            if rest.posts != [] {
              assert r.posts[|r.posts| - 1] == rest.posts[|rest.posts| - 1];
            }
            assert LastAccepted(provider, rest.posts);
            assert ops[|r.posts|] == ops[1..][|rest.posts|];
          }
        }
      }
    }
  }

  /** The `/query` handler: the response carries the final message and the
      requested workflow, unchanged. */
  function RunWorkflow(services: Table, provider: Provider, query: Query): (r: Result<Response, Failure>)
    ensures r.Ok? <==> RunSteps(services, provider, query.message, query.workflow).outcome.Ok?
    ensures r.Ok? ==> r.value.workflow == query.workflow
    ensures r.Ok? && query.workflow == [] ==> r.value.message == query.message
    ensures r.Ok? && query.workflow != [] ==> NoNulls(r.value.message)
  {
    var message :- RunSteps(services, provider, query.message, query.workflow).outcome;
    Ok(Response(message, query.workflow))
  }

  /** The handler's result is the run's outcome with the requested workflow. */
  lemma RunWorkflowOutcome(services: Table, provider: Provider, query: Query)
    ensures var outcome := RunSteps(services, provider, query.message, query.workflow).outcome;
            RunWorkflow(services, provider, query)
            == if outcome.Ok? then Ok(Response(outcome.value, query.workflow)) else Err(outcome.error)
  {
  }

  /** The handler returns the message of the last step: the cleaned message
      of the last reply. */
  lemma RunWorkflowLastMessage(services: Table, provider: Provider, query: Query)
    requires query.workflow != [] && RunWorkflow(services, provider, query).Ok?
    ensures var run := RunSteps(services, provider, query.message, query.workflow);
            && |run.posts| == |query.workflow|
            && NextMessage(Send(provider, run.posts[|run.posts| - 1])).Ok?
            && RunWorkflow(services, provider, query).value.message
               == NextMessage(Send(provider, run.posts[|run.posts| - 1])).value
  {
    RunWorkflowOutcome(services, provider, query);
    RunStepsLastReply(services, provider, query.message, query.workflow);
  }

  /** A status above 200, including the other 2xx codes, ends the run at that
      step with an error. */
  lemma ErrorStatusAborts(services: Table, provider: Provider, message: Value, ops: seq<Operation>, i: nat)
    requires i < |RunSteps(services, provider, message, ops).posts|
    requires Send(provider, RunSteps(services, provider, message, ops).posts[i]).status > MaxAcceptedStatus
    ensures var r := RunSteps(services, provider, message, ops);
            && i == |r.posts| - 1
            && r.outcome == Err(ErrorStatus(Send(provider, r.posts[i]).status))
  {
    var r := RunSteps(services, provider, message, ops);
    RunStepsMessages(services, provider, message, ops);
    RunStepsLastReply(services, provider, message, ops);
    assert NextMessage(Send(provider, r.posts[i])) == Err(ErrorStatus(Send(provider, r.posts[i]).status));
    if i < |r.posts| - 1 {
      ChainedReply(services, provider, message, ops, i);
      assert false;
    }
  }

  /** A run stops for want of a provider only at an id whose list is empty. */
  lemma {:induction false} NoProviderAtEmptyList(services: Table, provider: Provider, message: Value, ops: seq<Operation>)
    ensures var outcome := RunSteps(services, provider, message, ops).outcome;
            outcome.Err? && outcome.error.NoProvider? ==>
              outcome.error.id in services && services[outcome.error.id] == []
    decreases |ops|
  {
    if ops != [] {
      RunStepsStep(services, provider, message, ops);
      var url := FirstUrl(services, ops[0].id);
      if url.Ok? {
        var next := NextMessage(Send(provider, Post(url.value, message, ops[0])));
        if next.Ok? {
          NoProviderAtEmptyList(services, provider, next.value, ops[1..]);
        }
      }
    }
  }

  /** A table built from endpoints has a URL for every id it knows, so a run
      on it never stops for want of a provider. */
  lemma BuiltServicesHaveProviders(endpoints: seq<SmartApi.Endpoint>, provider: Provider, query: Query)
    requires BuildServices(endpoints).Ok?
    ensures var r := RunWorkflow(BuildServices(endpoints).value, provider, query);
            !(r.Err? && r.error.NoProvider?)
  {
    var table := BuildServices(endpoints).value;
    var outcome := RunSteps(table, provider, query.message, query.workflow).outcome;
    RunWorkflowOutcome(table, provider, query);
    NoProviderAtEmptyList(table, provider, query.message, query.workflow);
    if outcome.Err? && outcome.error.NoProvider? {
      ServicesKeysAndLists(endpoints, outcome.error.id);
    }
  }

  /** `whole` is the run made of the POSTs already made followed by `rest`. */
  predicate Resumes(whole: Run, done: seq<Post>, rest: Run)
  {
    whole == Run(done + rest.posts, rest.outcome)
  }

  lemma ResumesAfter(whole: Run, done: seq<Post>, post: Post, rest: Run)
    requires Resumes(whole, done, Run([post] + rest.posts, rest.outcome))
    ensures Resumes(whole, done + [post], rest)
  {
    assert done + ([post] + rest.posts) == done + [post] + rest.posts;
  }

  /** The handler's loop as written, statement by statement: it makes the
      same POSTs and returns the same result as the recursive description. */
  method RunWorkflowLoop(services: Table, provider: Provider, query: Query)
    returns (posts: seq<Post>, r: Result<Response, Failure>)
    ensures posts == RunSteps(services, provider, query.message, query.workflow).posts
    ensures r == RunWorkflow(services, provider, query)
  {
    var whole := RunSteps(services, provider, query.message, query.workflow);
    RunWorkflowOutcome(services, provider, query);
    var message := query.message;
    var pending := query.workflow;
    posts := [];
    while pending != []
      invariant Resumes(whole, posts, RunSteps(services, provider, message, pending))
      decreases |pending|
    {
      var op := pending[0];
      RunStepsStep(services, provider, message, pending);
      var url := FirstUrl(services, op.id);
      if url.Err? {
        return posts, Err(url.error);
      }
      var post := Post(url.value, message, op);
      var reply := provider(post.url, PostBody(post));
      if reply.status > MaxAcceptedStatus {
        return posts + [post], Err(ErrorStatus(reply.status));
      }
      var next := NextMessage(reply);
      if next.Err? {
        return posts + [post], Err(next.error);
      }
      ResumesAfter(whole, posts, post, RunSteps(services, provider, next.value, pending[1..]));
      posts := posts + [post];
      message := next.value;
      pending := pending[1..];
    }
    return posts, Ok(Response(message, query.workflow));
  }
}
